=== FILE: README.md ===
# Device bootstrap: a Dafny model

This project models the bootstrap step of the Mainflux agent
(`pkg/bootstrap/bootstrap.go`): the agent asks the bootstrap service for its
device configuration, retrying a bounded number of times with a fixed delay,
and turns the answer into its own configuration files.

The model covers:

- parsing of the `Retries` and `RetryDelaySec` settings, with the meaning of
  Go's `strconv.ParseUint(s, 10, 64)` (module `Decimal`);
- the retry loop and the whole `Bootstrap` control flow, with the outside
  world as oracles and a trace of effects (`Fetch`, `Sleep(nanos)`,
  `WriteExport(c)`, `SaveAgent(c)`) (module `Bootstrap`);
- the choice of control and data channel (module `Channels`);
- the translation of the fetched device configuration into the agent
  configuration, with the MQTT credentials taken from the device record
  (module `Configs`);
- seeding of the export configuration file, write-once (module `ExportSeed`);
- the content normalisation `convertContentStringToJSON`, built on a model of
  Go's `strings.ReplaceAll` (modules `Replace` and `Normalize`).

Oracles: `fetch(i)` is the outcome of the i-th call of `getConfig`
(a decoded device configuration or a failure); `statSucceeds(p)` holds when
`os.Stat(p)` returns no error, so a Stat that fails for any reason (permission
denied or an I/O error as well as a missing file) counts as no file there; `saveAgent(c)` is the error, if any, returned by
`agent.SaveConfig`. The result of the export save is discarded by the code,
so the model has no input for it and it cannot reach the caller.

Points of the code's behaviour that are easy to misread, and that the model
pins down:

- A bad `RetryDelaySec` is only an error when `Retries` is positive: with
  `Retries` equal to 0 the function returns before the delay is parsed.
- Every failed attempt is followed by a sleep, the last one included, so N
  failed attempts sleep N times, not N-1.
- The sleep duration is `time.Duration(retryDelaySec) * time.Second`
  computed in int64 nanoseconds. From 9223372037 seconds on it wraps, and
  at 9223372037 it is negative, so that sleep does not wait.
- Channel metadata values are arbitrary JSON values, not only strings; the
  swap happens only when the first channel's `"type"` value is the string
  `"data"`.

Line 199 strips every backslash, not only those before a quote, so any other JSON escape in the body loses its backslash: a `\n` inside a string (the PEM fields `client_cert`, `client_key` and `ca_cert`, for instance) becomes the letter `n` (`Normalize.EscapeLost`).

The normalisation is not idempotent: `""{{` becomes `"{{`, which a second
pass turns into `{{` (`Normalize.NotIdempotent`).

## Model

| member | source | states |
|---|---|---|
| `Decimal.ParseUint` | pkg/bootstrap/bootstrap.go:66 | Go's digit loop, with its early overflow cutoff and uint64 wrap-around test, accepts exactly the non-empty all-digit strings whose value is below 2^64, and returns that value |
| `Decimal.OverflowRejected` | pkg/bootstrap/bootstrap.go:66 | once a digit prefix reaches 2^64 the whole string is rejected, whatever follows, so stopping at the overflow is sound |
| `Decimal.ParseFormat` | pkg/bootstrap/bootstrap.go:66 | every uint64 written in decimal parses back to itself |
| `Decimal.FormatParse` | pkg/bootstrap/bootstrap.go:66 | every accepted string without redundant leading zeros is the decimal rendering of its value, so such strings and uint64 values correspond one to one |
| `Replace.ReplaceAll` | pkg/bootstrap/bootstrap.go:199-201 | left-to-right, non-overlapping replacement never makes the text longer when the replacement is no longer than the pattern |
| `Replace.ReplaceAllDeletes` | pkg/bootstrap/bootstrap.go:199-201 | when the replacement is the pattern minus some characters, replacing every occurrence only deletes such characters from the text |
| `Replace.ReplaceAllRemovesChar` | pkg/bootstrap/bootstrap.go:199 | replacing a one-character pattern by text without it leaves no occurrence of that character |
| `Replace.ReplaceAllUnchanged` | pkg/bootstrap/bootstrap.go:199-201 | with a shorter replacement, the text comes back unchanged if and only if the pattern does not occur in it |
| `Normalize.ConvertContentStringToJson` | pkg/bootstrap/bootstrap.go:198-203 | the normalised body has no backslash, is the input with only backslashes and double quotes deleted (a subsequence), and is never longer |
| `Normalize.PassesDelete` | pkg/bootstrap/bootstrap.go:199-201 | each of the two quote passes deletes only double quotes, and the three passes together delete only backslashes and double quotes |
| `Normalize.KeepsBraces` | pkg/bootstrap/bootstrap.go:198-203 | the number of `{` and of `}` is unchanged, and no character is added |
| `Normalize.UnchangedIff` | pkg/bootstrap/bootstrap.go:198-203 | the body comes back unchanged exactly when it contains no backslash, no `"{` and no `}"` |
| `Normalize.UnescapesEmbeddedObject` | pkg/bootstrap/bootstrap.go:198-203 | an object sent as an escaped JSON string, `"` + its text with every `"` written `\"` + `"`, comes back as the object itself, for any object text without a backslash, a control character, `"{` or `}"` of its own |
| `Normalize.EscapeLost` | pkg/bootstrap/bootstrap.go:199 | every backslash is stripped, so a JSON escape other than `\"` is corrupted: an object holding one escaped character `\c` comes back holding the bare `c` (`"{\n}"` becomes `{n}`, not an object holding a newline) |
| `Normalize.NotIdempotent` | pkg/bootstrap/bootstrap.go:198-203 | a second application can change the text again |
| `Channels.ChooseChannels` | pkg/bootstrap/bootstrap.go:102-111 | fewer than two channels is the malformed-entity case; otherwise the pair is the first two channel ids, and (for distinct ids) the first channel is the data channel exactly when its `"type"` metadata is `"data"` |
| `Channels.ChoiceIgnoresRest` | pkg/bootstrap/bootstrap.go:106-111 | the second channel's metadata and every channel after the second have no effect on the choice |
| `Channels.DefaultIsPositional` | pkg/bootstrap/bootstrap.go:106-107 | without a `"type"` key on the first channel, control is the first id and data the second |
| `Configs.Translate` | pkg/bootstrap/bootstrap.go:113-130 | the MQTT username, password, client certificate, client key and CA certificate come from the device record; the other MQTT settings and the server, Edgex, log, heartbeat and terminal sections are copied unchanged; channels and file are the given ones |
| `Configs.TranslateIgnoresFetchedOverrides` | pkg/bootstrap/bootstrap.go:121-126 | credentials, channels and file carried inside the fetched agent section never influence the result |
| `ExportSeed.ExportPath` | pkg/bootstrap/bootstrap.go:136-138 | an empty file name becomes `/configs/export/config.toml`, a non-empty one is kept, the path is never empty |
| `ExportSeed.SeedExport` | pkg/bootstrap/bootstrap.go:135-149 | a configuration is written if and only if the Stat of its resolved path fails, and it is written with that path |
| `ExportSeed.SeedWritesOnce` | pkg/bootstrap/bootstrap.go:139-149 | once the Stat of the written path succeeds, seeding again writes nothing |
| `ExportSeed.SeedKeepsExisting` | pkg/bootstrap/bootstrap.go:140-144 | nothing is written when the Stat of the resolved path succeeds, so a file Stat can see is never overwritten |
| `ExportSeed.SeedResolvedPath` | pkg/bootstrap/bootstrap.go:136-138 | resolving the default path first does not change what is seeded |
| `Bootstrap.SeedEffects` | pkg/bootstrap/bootstrap.go:100 | seeding records either nothing or exactly one write of the export configuration with its path defaulted, and nothing exactly when the Stat of that path succeeds |
| `Bootstrap.ApplyDeviceConfig` | pkg/bootstrap/bootstrap.go:100-132 | seeding happens first in every case; fewer than two channels gives the malformed-entity error with no agent save; otherwise the translated configuration for the chosen channels is saved and the result is nil exactly when the save succeeds, else the save's error |
| `Bootstrap.FetchWithRetry` | pkg/bootstrap/bootstrap.go:83-98 | the loop gives up exactly when all N attempts fail, after N fetch-then-sleep rounds; otherwise it stops at the first successful attempt k < N, after k failed rounds and one more fetch, with that attempt's configuration |
| `Bootstrap.Bootstrap` | pkg/bootstrap/bootstrap.go:65-133 | an unparsable retry count is an error with no fetch; a zero count is a nil skip with no fetch, whatever the delay; a bad delay with a positive count is an error with no fetch; all attempts failing gives a nil result after N failed rounds; a first success at attempt k applies exactly that attempt's configuration after k failed rounds |
| `Bootstrap.SleepDuration` | pkg/bootstrap/bootstrap.go:92 | for every delay, the duration slept is the one int64 value congruent to delay × 10^9 modulo 2^64, which is what the uint64-to-int64 conversion and the int64 multiplication compute |
| `Bootstrap.SleepDurationExact` | pkg/bootstrap/bootstrap.go:92 | for a delay of at most 9223372036 seconds, the sleep lasts exactly the delay in seconds |
| `Bootstrap.SleepDurationWraps` | pkg/bootstrap/bootstrap.go:92 | a delay of 9223372037 seconds wraps to a negative int64 duration, so that sleep does not wait at all |
| `Bootstrap.FailedAttemptsShape` | pkg/bootstrap/bootstrap.go:85-97 | N failed rounds are exactly N fetches and N sleeps, each of the configured delay converted to a duration as Go's int64 arithmetic does, and touch neither the export file nor the agent configuration |
| `Bootstrap.SuccessCounts` | pkg/bootstrap/bootstrap.go:85-89 | a first success at attempt k (from 0) means k+1 fetches and k sleeps in total, whatever is written afterwards |
| `Bootstrap.FirstSuccessUnique` | pkg/bootstrap/bootstrap.go:86-88 | only one attempt can be the first to succeed, so the configuration used is well defined |

## Left out

- `getConfig` (lines 152-196): the certificate pool, TLS client, HTTP request, status-code mapping, body read, JSON decoding and the diagnostic print are network, library and stdout calls; they are the `fetch` oracle. The normalisation it applies is modelled on its own.
- `os.Stat`, `export.Save`, `agent.NewConfig` and `agent.SaveConfig` are file I/O and code of other packages that is not part of this model: the existence check and the agent save are oracles, `agent.NewConfig` is taken to assemble its arguments into the configuration record, and the export save appears only as a `WriteExport` effect.
- `time.Sleep` and every logger call: each sleep is recorded with the int64 nanosecond duration Go computes at line 92, wrap-around included; passing time and log text are not modelled.
- The `uint64` to `int` conversion of the retry count (line 85): counts are unbounded naturals, so platform overflow of that conversion is not modelled. With a 64-bit `int`, a count of 2^63 or more converts to a negative number and the loop never runs. The empty `deviceConfig{}` then reaches line 100: the export file is seeded from an empty configuration (at the default path) with no fetch at all, and line 103 returns `ErrMalformedEntity`. The model instead makes that many attempts.
- `Decimal.ParseUint`: syntax and range errors are not told apart, and the error text is not modelled; `Bootstrap` only formats them into its message.
- `Bootstrap.Bootstrap`: the error messages are reduced to the kinds `InvalidRetries`, `InvalidRetryDelay`, `MalformedEntity` and `SaveFailed`.
- `Replace.ReplaceAll` is defined for non-empty patterns only; Go's behaviour for an empty pattern is never used by this code.
- Each character of the normalised body stands for one byte; all three patterns are ASCII, so no multi-byte sequence can be split by them.
- The `Encrypt` field of the settings and the `infraConfig` type are never used by the code. The URL, ID, key and TLS flag are carried in `Config` but only matter to `getConfig`.
- Channel fields other than the id and the metadata are not modelled: the code never reads them, so `Channels.Channel` has only those two.
- The contents of the sub-configurations the code only copies (server, Edgex, log, heartbeat, terminal, the non-credential MQTT settings, the export settings) are abstract types.
- `Normalize.UnescapesEmbeddedObject` states the normalisation's purpose for an escaped object on its own, not inside a full payload with the surrounding fields. The other normalisation properties (no backslash, only `\` and `"` deleted, braces kept, unchanged exactly when no pattern occurs) do not pin the output down by themselves.

=== FILE: base.dfy ===
/** Shared helper types for the bootstrap model. */
module Base {

  /** A value that may be absent: Go's `(value, err)` pairs where only
      `err != nil` matters to the caller. */
  datatype Option<+T> = None | Some(value: T)
}

=== FILE: bootstrap.dfy ===
/** The bootstrap procedure (`Bootstrap`, bootstrap.go lines 64-133): parse
    the retry settings, fetch the device configuration with bounded retry,
    seed the export configuration, choose the channels and hand the
    translated agent configuration to the agent's save routine.

    Every outside effect is an oracle parameter: `fetch(i)` is the outcome of
    the i-th call to the bootstrap service (getConfig, including the HTTP
    request, the content normalisation and JSON decoding), `statSucceeds(p)`
    holds when `os.Stat(p)` returns no error (any Stat failure counts as no
    file there), and `saveAgent(c)` is the error, if any,
    of saving the agent configuration. What the procedure does to the
    outside world is returned as a trace of effects. */
module Bootstrap {
  import opened Base
  import opened Decimal
  import opened Channels
  import opened Configs
  import opened ExportSeed

  /** The bootstrap settings as the caller supplies them. */
  datatype Config = Config(
    url: string,
    id: string,
    key: string,
    retries: string,
    retryDelaySec: string,
    skipTls: bool)

  datatype FetchOutcome = Fetched(config: DeviceConfig) | FetchFailed

  datatype Effect =
    | Fetch
    | Sleep(nanos: int)
    | WriteExport(exportConf: ExportConfig)
    | SaveAgent(agentConf: AgentConfig)

  datatype Error =
    | InvalidRetries
    | InvalidRetryDelay
    | MalformedEntity
    | SaveFailed(reason: string)

  /** What Bootstrap returns. The first three are all a nil error in the
      source; they are told apart here so the degraded paths are visible. */
  datatype Status = Skipped | RetriesExhausted | Configured | Failed(error: Error) {
    predicate IsNil() {
      !Failed?
    }
  }

  datatype Run = Run(status: Status, effects: seq<Effect>)

  predicate TouchesStorage(e: Effect) {
    e.WriteExport? || e.SaveAgent?
  }

  function CountFetches(t: seq<Effect>): nat {
    if t == [] then 0 else (if t[0].Fetch? then 1 else 0) + CountFetches(t[1..])
  }

  /** The durations of the sleeps in a trace, in order. */
  function SleepDurations(t: seq<Effect>): seq<int> {
    if t == [] then [] else (if t[0].Sleep? then [t[0].nanos] else []) + SleepDurations(t[1..])
  }

  const TwoTo63: int := 0x8000_0000_0000_0000
  const NanosPerSecond: int := 1_000_000_000

  /** Go's two's-complement reduction of an integer to int64. */
  function WrapInt64(x: int): (r: int)
    ensures -TwoTo63 <= r < TwoTo63
    ensures (x - r) % Uint64Limit == 0
  {
    var m := x % Uint64Limit;
    if m >= TwoTo63 then m - Uint64Limit else m
  }

  /** The duration, in nanoseconds, that line 92 sleeps for:
      `time.Duration(retryDelaySec) * time.Second`, a uint64 converted to
      int64 and multiplied in int64, both steps wrapping. `time.Sleep`
      returns at once for a duration that is zero or negative. */
  function SleepDuration(delaySec: nat): (r: int)
    ensures -TwoTo63 <= r < TwoTo63
    ensures (delaySec * NanosPerSecond - r) % Uint64Limit == 0
  {
    var w := WrapInt64(delaySec);
    var r := WrapInt64(w * NanosPerSecond);
    ScaleCongruent(delaySec, w);
    CongruentTrans(delaySec * NanosPerSecond, w * NanosPerSecond, r);
    r
  }

  /** Congruence modulo 2^64 survives scaling by the nanoseconds in a second. */
  lemma ScaleCongruent(a: int, b: int)
    requires (a - b) % Uint64Limit == 0
    ensures (a * NanosPerSecond - b * NanosPerSecond) % Uint64Limit == 0
  {
    var q := (a - b) / Uint64Limit;
    assert a - b == q * Uint64Limit;
    ScaledDifference(a - b, q);
    assert a * NanosPerSecond - b * NanosPerSecond == (a - b) * NanosPerSecond;
  }

  lemma ScaledDifference(x: int, q: int)
    requires x == q * Uint64Limit
    ensures (x * NanosPerSecond) % Uint64Limit == 0
  {
    assert x * NanosPerSecond == (q * NanosPerSecond) * Uint64Limit;
  }

  lemma CongruentTrans(a: int, b: int, c: int)
    requires (a - b) % Uint64Limit == 0 && (b - c) % Uint64Limit == 0
    ensures (a - c) % Uint64Limit == 0
  {
    var q := (a - b) / Uint64Limit;
    var p := (b - c) / Uint64Limit;
    assert a - b == q * Uint64Limit;
    assert b - c == p * Uint64Limit;
    assert a - c == (q + p) * Uint64Limit;
  }

  /** Up to 9223372036 seconds the sleep is exactly the configured delay. */
  lemma SleepDurationExact(delaySec: nat)
    requires delaySec * NanosPerSecond < TwoTo63
    ensures SleepDuration(delaySec) == delaySec * NanosPerSecond
  {
    assert delaySec < TwoTo63;
    assert delaySec % Uint64Limit == delaySec;
    assert WrapInt64(delaySec) == delaySec;
    var x := delaySec * NanosPerSecond;
    assert 0 <= x < Uint64Limit;
    assert x % Uint64Limit == x;
  }

  /** One second more and the product wraps negative: no wait at all. */
  lemma SleepDurationWraps()
    ensures SleepDuration(9223372037) < 0
  {
    var x := 9223372037 * NanosPerSecond;
    assert WrapInt64(9223372037) == 9223372037;
    assert x % Uint64Limit == x;
  }

  /** The trace of `k` failed attempts: each fetches, then sleeps. */
  function FailedAttempts(k: nat, delay: nat): seq<Effect> {
    if k == 0 then [] else FailedAttempts(k - 1, delay) + [Fetch, Sleep(SleepDuration(delay))]
  }

  /** The first `k` fetches all fail. */
  predicate FailsBefore(fetch: nat -> FetchOutcome, k: nat) {
    forall j :: 0 <= j < k ==> fetch(j).FetchFailed?
  }

  /** Both retry settings parse and at least one attempt is asked for. */
  predicate WillFetch(cfg: Config) {
    && Uint64Value(cfg.retries).Some?
    && Uint64Value(cfg.retries).value > 0
    && Uint64Value(cfg.retryDelaySec).Some?
  }

  function Attempts(cfg: Config): nat
    requires WillFetch(cfg)
  {
    Uint64Value(cfg.retries).value
  }

  function Delay(cfg: Config): nat
    requires WillFetch(cfg)
  {
    Uint64Value(cfg.retryDelaySec).value
  }

  /** The export write that seeding performs, as a trace. */
  function SeedEffects(econf: ExportConfig, statSucceeds: string -> bool): (t: seq<Effect>)
    ensures t == [] || t == [WriteExport(econf.(file := ExportPath(econf.file)))]
    ensures t == [] <==> statSucceeds(ExportPath(econf.file))
  {
    match SeedExport(econf, statSucceeds)
    case None => []
    case Some(w) => [WriteExport(w)]
  }

  /** What happens after a successful fetch (lines 100-132): the export file
      is seeded first, whatever follows; fewer than two channels is a
      malformed entity and the agent configuration is then never saved;
      otherwise the translated configuration is saved and the save's error
      is returned as is. */
  function ApplyDeviceConfig(
    dc: DeviceConfig, file: string,
    statSucceeds: string -> bool, saveAgent: AgentConfig -> Option<string>): (r: Run)
    ensures forall e :: e in r.effects ==> TouchesStorage(e)
    ensures |dc.channels| < 2 ==>
      r == Run(Failed(MalformedEntity), SeedEffects(dc.content.exportConf, statSucceeds))
    ensures |dc.channels| >= 2 ==>
      var c := Translate(dc, ChooseChannels(dc.channels).value, file);
      && r.effects == SeedEffects(dc.content.exportConf, statSucceeds) + [SaveAgent(c)]
      && (r.status.IsNil() <==> saveAgent(c).None?)
      && (r.status.IsNil() ==> r.status == Configured)
      && (r.status.Failed? ==> r.status.error == SaveFailed(saveAgent(c).value))
  {
    var seeded := SeedEffects(dc.content.exportConf, statSucceeds);
    match ChooseChannels(dc.channels)
    case None => Run(Failed(MalformedEntity), seeded)
    case Some(cc) =>
      var c := Translate(dc, cc, file);
      var status := match saveAgent(c)
        case None => Configured
        case Some(reason) => Failed(SaveFailed(reason));
      Run(status, seeded + [SaveAgent(c)])
  }

  /** Where the retry loop ends: out of attempts, or with the configuration
      of the first attempt that succeeded (attempts count from 0). */
  datatype Retrieval = Exhausted | Retrieved(attempt: nat, config: DeviceConfig)

  /** The retry loop (lines 83-98). After a failed attempt it sleeps before
      testing whether that was the last attempt, so every failed attempt,
      the last one included, is followed by a sleep. */
  method FetchWithRetry(n: nat, d: nat, fetch: nat -> FetchOutcome)
    returns (got: Retrieval, trace: seq<Effect>)
    requires n > 0
    ensures got.Exhausted? <==> FailsBefore(fetch, n)
    ensures got.Exhausted? ==> trace == FailedAttempts(n, d)
    ensures got.Retrieved? ==>
      && got.attempt < n
      && FailsBefore(fetch, got.attempt)
      && fetch(got.attempt) == Fetched(got.config)
      && trace == FailedAttempts(got.attempt, d) + [Fetch]
  {
    trace := [];
    var fetched: Option<DeviceConfig> := None;
    var i := 0;
    while fetched.None?
      invariant i < n
      invariant FailsBefore(fetch, i)
      invariant fetched.None? ==> trace == FailedAttempts(i, d)
      invariant fetched.Some? ==> fetch(i) == Fetched(fetched.value) && trace == FailedAttempts(i, d) + [Fetch]
      decreases n - i, if fetched.None? then 1 else 0
    {
      var outcome := fetch(i);
      trace := trace + [Fetch];
      if outcome.Fetched? {
        fetched := Some(outcome.config);
      } else {
        trace := trace + [Sleep(SleepDuration(d))];
        assert trace == FailedAttempts(i + 1, d);
        if i == n - 1 {
          return Exhausted, trace;
        }
        i := i + 1;
      }
    }
    return Retrieved(i, fetched.value), trace;
  }

  /** Bootstrap: settings that do not parse end it before any fetch, zero
      retries skips it, running out of attempts is not an error, and after a
      successful fetch the configuration of that fetch is applied. */
  method Bootstrap(
    cfg: Config, file: string, fetch: nat -> FetchOutcome,
    statSucceeds: string -> bool, saveAgent: AgentConfig -> Option<string>)
    returns (status: Status, trace: seq<Effect>)
    ensures Uint64Value(cfg.retries).None? ==> status == Failed(InvalidRetries) && trace == []
    ensures Uint64Value(cfg.retries) == Some(0) ==> status == Skipped && trace == []
    ensures Uint64Value(cfg.retries).Some? && Uint64Value(cfg.retries).value > 0
            && Uint64Value(cfg.retryDelaySec).None? ==>
              status == Failed(InvalidRetryDelay) && trace == []
    ensures WillFetch(cfg) && FailsBefore(fetch, Attempts(cfg)) ==>
      status == RetriesExhausted && trace == FailedAttempts(Attempts(cfg), Delay(cfg))
    ensures forall k: nat :: WillFetch(cfg) && k < Attempts(cfg) && FailsBefore(fetch, k) && fetch(k).Fetched? ==>
      var run := ApplyDeviceConfig(fetch(k).config, file, statSucceeds, saveAgent);
      status == run.status && trace == FailedAttempts(k, Delay(cfg)) + [Fetch] + run.effects
  {
    var retries := ParseUint(cfg.retries);
    if retries.None? {
      return Failed(InvalidRetries), [];
    }
    if retries.value == 0 {
      return Skipped, [];
    }
    var delay := ParseUint(cfg.retryDelaySec);
    if delay.None? {
      return Failed(InvalidRetryDelay), [];
    }
    var got, attempts := FetchWithRetry(retries.value, delay.value, fetch);
    if got.Exhausted? {
      return RetriesExhausted, attempts;
    }
    var run := ApplyDeviceConfig(got.config, file, statSucceeds, saveAgent);
    status, trace := run.status, attempts + run.effects;
    forall k: nat | k < retries.value && FailsBefore(fetch, k) && fetch(k).Fetched?
      ensures k == got.attempt
    {
      FirstSuccessUnique(fetch, k, got.attempt);
    }
  }

  /** At most one attempt is the first to succeed. */
  lemma FirstSuccessUnique(fetch: nat -> FetchOutcome, k: nat, l: nat)
    requires FailsBefore(fetch, k) && fetch(k).Fetched?
    requires FailsBefore(fetch, l) && fetch(l).Fetched?
    ensures k == l
  {
  }

  /** When attempt k (counting from 0) is the first success: exactly k+1
      fetches and k sleeps, and the storage effects are those of applying
      that attempt's configuration. */
  lemma SuccessCounts(k: nat, delay: nat, effects: seq<Effect>)
    requires forall e :: e in effects ==> TouchesStorage(e)
    ensures CountFetches(FailedAttempts(k, delay) + [Fetch] + effects) == k + 1
    ensures SleepDurations(FailedAttempts(k, delay) + [Fetch] + effects) == seq(k, _ => SleepDuration(delay))
  {
    FailedAttemptsShape(k, delay);
    StorageOnly(effects);
    CountFetchesAppend(FailedAttempts(k, delay), [Fetch]);
    CountFetchesAppend(FailedAttempts(k, delay) + [Fetch], effects);
    SleepDurationsAppend(FailedAttempts(k, delay), [Fetch]);
    SleepDurationsAppend(FailedAttempts(k, delay) + [Fetch], effects);
  }

  lemma {:induction false} CountFetchesAppend(a: seq<Effect>, b: seq<Effect>)
    ensures CountFetches(a + b) == CountFetches(a) + CountFetches(b)
    decreases |a|
  {
    if a == [] {
      assert a + b == b;
    } else {
      assert (a + b)[1..] == a[1..] + b;
      CountFetchesAppend(a[1..], b);
    }
  }

  lemma {:induction false} SleepDurationsAppend(a: seq<Effect>, b: seq<Effect>)
    ensures SleepDurations(a + b) == SleepDurations(a) + SleepDurations(b)
    decreases |a|
  {
    if a == [] {
      assert a + b == b;
    } else {
      var head: seq<int> := if a[0].Sleep? then [a[0].nanos] else [];
      assert (a + b)[0] == a[0] && (a + b)[1..] == a[1..] + b;
      assert SleepDurations(a + b) == head + SleepDurations(a[1..] + b);
      SleepDurationsAppend(a[1..], b);
      assert SleepDurations(a) == head + SleepDurations(a[1..]);
    }
  }

  /** k failed attempts are exactly k fetches and k sleeps of the configured
      delay, and nothing is written. */
  lemma {:induction false} FailedAttemptsShape(k: nat, delay: nat)
    ensures CountFetches(FailedAttempts(k, delay)) == k
    ensures SleepDurations(FailedAttempts(k, delay)) == seq(k, _ => SleepDuration(delay))
    ensures forall e :: e in FailedAttempts(k, delay) ==> !TouchesStorage(e)
  {
    if k > 0 {
      FailedAttemptsShape(k - 1, delay);
      var pair: seq<Effect> := [Fetch, Sleep(SleepDuration(delay))];
      CountFetchesAppend(FailedAttempts(k - 1, delay), pair);
      SleepDurationsAppend(FailedAttempts(k - 1, delay), pair);
      assert pair[1..] == [Sleep(SleepDuration(delay))] && pair[1..][1..] == [];
      assert SleepDurations(pair[1..]) == [SleepDuration(delay)];
      assert CountFetches(pair[1..]) == 0;
      assert seq(k - 1, _ => SleepDuration(delay)) + [SleepDuration(delay)] == seq(k, _ => SleepDuration(delay));
    }
  }

  /** A trace made only of storage effects holds no fetch and no sleep. */
  lemma {:induction false} StorageOnly(t: seq<Effect>)
    requires forall e :: e in t ==> TouchesStorage(e)
    ensures CountFetches(t) == 0 && SleepDurations(t) == []
    decreases |t|
  {
    if t != [] {
      assert t[0] in t;
      StorageOnly(t[1..]);
    }
  }
}

=== FILE: channels.dfy ===
/** Choosing the control and data channels from the fetched channel list
    (bootstrap.go lines 102-111). */
module Channels {
  import opened Base

  /** A metadata value of a channel. Channel metadata holds arbitrary JSON
      values; the only thing this code asks of one is whether it is the
      string "data". */
  datatype MetaValue = Text(text: string) | NonText

  datatype Channel = Channel(id: string, metadata: map<string, MetaValue>)

  /** The agent's channel pair. */
  datatype ChanConf = ChanConf(control: string, data: string)

  /** `ch.Metadata["type"] == "data"`: a missing key reads as a nil value,
      which is never equal to the string. */
  predicate MarkedAsData(ch: Channel) {
    "type" in ch.metadata && ch.metadata["type"] == Text("data")
  }

  /** Fewer than two channels is a malformed entity (None). Otherwise the
      first channel is control and the second data, unless the first is
      marked as the data channel, in which case the two swap. */
  function ChooseChannels(chs: seq<Channel>): (r: Option<ChanConf>)
    ensures r.None? <==> |chs| < 2
    ensures r.Some? ==> multiset{r.value.control, r.value.data} == multiset{chs[0].id, chs[1].id}
    ensures r.Some? && chs[0].id != chs[1].id ==> (r.value.data == chs[0].id <==> MarkedAsData(chs[0]))
  {
    if |chs| < 2 then None
    else if MarkedAsData(chs[0]) then Some(ChanConf(chs[1].id, chs[0].id))
    else Some(ChanConf(chs[0].id, chs[1].id))
  }

  /** Only the first channel's metadata and the first two ids matter: the
      second channel's metadata and every channel after the second have no
      effect on the choice. */
  lemma ChoiceIgnoresRest(chs: seq<Channel>, others: seq<Channel>)
    requires |chs| >= 2 && |others| >= 2
    requires others[0] == chs[0] && others[1].id == chs[1].id
    ensures ChooseChannels(others) == ChooseChannels(chs)
  {
  }

  /** With no "type" marker on the first channel, the order of the list decides. */
  lemma DefaultIsPositional(chs: seq<Channel>)
    requires |chs| >= 2 && "type" !in chs[0].metadata
    ensures ChooseChannels(chs) == Some(ChanConf(chs[0].id, chs[1].id))
  {
  }
}

=== FILE: configs.dfy ===
/** The configuration records: what the bootstrap service returns and what
    the agent is given. Sub-configurations this code only copies are kept
    abstract; their contents are owned by the agent and export packages. */
module Configs {
  import opened Channels

  type ServerConf(==)
  type EdgexConf(==)
  type LogConf(==)
  type HeartbeatConf(==)
  type TerminalConf(==)

  /** Every MQTT setting other than the credentials (broker URL, TLS flags,
      QoS, ...). */
  type MqttSettings(==)

  /** Every export setting other than the file path. */
  type ExportSettings(==)

  datatype MqttConf = MqttConf(
    username: string,
    password: string,
    clientCert: string,
    clientKey: string,
    caCert: string,
    settings: MqttSettings)

  /** The agent configuration (agent.Config). */
  datatype AgentConfig = AgentConfig(
    server: ServerConf,
    channels: ChanConf,
    edgex: EdgexConf,
    log: LogConf,
    mqtt: MqttConf,
    heartbeat: HeartbeatConf,
    terminal: TerminalConf,
    file: string)

  /** The export configuration (export.Config). */
  datatype ExportConfig = ExportConfig(file: string, settings: ExportSettings)

  datatype ServicesConfig = ServicesConfig(agent: AgentConfig, exportConf: ExportConfig)

  /** The decoded payload of the bootstrap service. */
  datatype DeviceConfig = DeviceConfig(
    mainfluxId: string,
    mainfluxKey: string,
    channels: seq<Channel>,
    clientKey: string,
    clientCert: string,
    caCert: string,
    content: ServicesConfig)

  /** The agent configuration built from a fetched device configuration, the
      chosen channels and the destination file (lines 113-130). The device's
      own identity and certificates always win over whatever credentials the
      fetched MQTT section carried. */
  function Translate(dc: DeviceConfig, cc: ChanConf, file: string): (c: AgentConfig)
    ensures c.mqtt.username == dc.mainfluxId && c.mqtt.password == dc.mainfluxKey
    ensures c.mqtt.clientCert == dc.clientCert && c.mqtt.clientKey == dc.clientKey
    ensures c.mqtt.caCert == dc.caCert
    ensures c.mqtt.settings == dc.content.agent.mqtt.settings
    ensures c.server == dc.content.agent.server && c.edgex == dc.content.agent.edgex
    ensures c.log == dc.content.agent.log && c.heartbeat == dc.content.agent.heartbeat
    ensures c.terminal == dc.content.agent.terminal
    ensures c.channels == cc && c.file == file
  {
    var a := dc.content.agent;
    var mc := a.mqtt.(password := dc.mainfluxKey, username := dc.mainfluxId,
                      clientCert := dc.clientCert, clientKey := dc.clientKey,
                      caCert := dc.caCert);
    AgentConfig(a.server, cc, a.edgex, a.log, mc, a.heartbeat, a.terminal, file)
  }

  /** The credentials, channels and file that came inside the fetched agent
      section are discarded: two payloads that differ only there translate
      to the same agent configuration. */
  lemma TranslateIgnoresFetchedOverrides(dc: DeviceConfig, other: DeviceConfig, cc: ChanConf, file: string)
    requires other.mainfluxId == dc.mainfluxId && other.mainfluxKey == dc.mainfluxKey
    requires other.clientCert == dc.clientCert && other.clientKey == dc.clientKey
    requires other.caCert == dc.caCert
    requires other.content.agent.mqtt.settings == dc.content.agent.mqtt.settings
    requires other.content.agent.server == dc.content.agent.server
    requires other.content.agent.edgex == dc.content.agent.edgex
    requires other.content.agent.log == dc.content.agent.log
    requires other.content.agent.heartbeat == dc.content.agent.heartbeat
    requires other.content.agent.terminal == dc.content.agent.terminal
    ensures Translate(other, cc, file) == Translate(dc, cc, file)
  {
  }
}

=== FILE: decimal.dfy ===
/** Base-10 unsigned 64-bit parsing, as done by Go's `strconv.ParseUint(s, 10, 64)`
    on the BOOTSTRAP_RETRIES and BOOTSTRAP_RETRY_DELAY_SECONDS settings. */
module Decimal {
  import opened Base

  /** 2^64: the first value that no longer fits a uint64. */
  const Uint64Limit: nat := 0x1_0000_0000_0000_0000

  /** The largest uint64. */
  const MaxUint64: nat := Uint64Limit - 1

  /** Go's early-overflow threshold for base 10: `maxUint64/10 + 1`. */
  const Cutoff: nat := MaxUint64 / 10 + 1

  predicate IsDigit(c: char) {
    '0' <= c <= '9'
  }

  predicate AllDigits(s: string) {
    forall i :: 0 <= i < |s| ==> IsDigit(s[i])
  }

  function DigitValue(c: char): (d: nat)
    requires IsDigit(c)
    ensures d < 10
  {
    (c as int) - ('0' as int)
  }

  function DigitChar(d: nat): (c: char)
    requires d < 10
    ensures IsDigit(c) && DigitValue(c) == d
  {
    ('0' as int + d) as char
  }

  /** The number a run of decimal digits denotes (most significant digit first). */
  function Value(s: string): nat
    requires AllDigits(s)
  {
    if s == [] then 0 else 10 * Value(s[..|s| - 1]) + DigitValue(s[|s| - 1])
  }

  /** Reference meaning of `strconv.ParseUint(s, 10, 64)`: a non-empty run of
      ASCII digits (no sign, no underscores, no prefix) whose value fits in a
      uint64. Leading zeros are allowed. */
  function Uint64Value(s: string): Option<nat> {
    if s != [] && AllDigits(s) && Value(s) < Uint64Limit then Some(Value(s)) else None
  }

  /** Canonical decimal rendering of a number: no leading zeros, "0" for zero. */
  function Format(n: nat): (s: string)
    ensures s != []
  {
    if n < 10 then [DigitChar(n)] else Format(n / 10) + [DigitChar(n % 10)]
  }

  /** A digit string without redundant leading zeros. */
  predicate Canonical(s: string) {
    s != [] && AllDigits(s) && (s[0] == '0' ==> |s| == 1)
  }

  /** Go's digit loop: it rejects the first non-digit, stops as soon as
      `n*10` would overflow (`n >= cutoff`), and detects overflow of `n*10 + d`
      by the uint64 addition wrapping around. Syntax and range errors are both
      reported as `None`. */
  method ParseUint(s: string) returns (r: Option<nat>)
    ensures r == Uint64Value(s)
    ensures r.Some? ==> r.value <= MaxUint64
  {
    if |s| == 0 {
      return None;
    }
    var n: nat := 0;
    var i := 0;
    while i < |s|
      invariant 0 <= i <= |s|
      invariant AllDigits(s[..i])
      invariant n == Value(s[..i])
      invariant n < Uint64Limit
    {
      var c := s[i];
      if !IsDigit(c) {
        assert !IsDigit(s[i]);
        return None;
      }
      assert s[..i + 1][..i] == s[..i];
      if n >= Cutoff {
        // n * 10 already exceeds MaxUint64, so the prefix s[..i+1] does too
        OverflowRejected(s, i + 1);
        return None;
      }
      var scaled := n * 10;
      var n1 := (scaled + DigitValue(c)) % Uint64Limit;
      if n1 < scaled {
        // the uint64 addition wrapped around
        OverflowRejected(s, i + 1);
        return None;
      }
      n := n1;
      i := i + 1;
    }
    assert s[..i] == s;
    return Some(n);
  }

  /** Once a digit prefix denotes 2^64 or more, no extension of it is accepted. */
  lemma OverflowRejected(s: string, k: nat)
    requires k <= |s|
    requires AllDigits(s[..k]) && Value(s[..k]) >= Uint64Limit
    ensures Uint64Value(s) == None
  {
    if AllDigits(s) {
      PrefixValueBounded(s, k);
    }
  }

  /** Extending a digit string never lowers its value. */
  lemma {:induction false} PrefixValueBounded(s: string, k: nat)
    requires AllDigits(s) && k <= |s|
    ensures AllDigits(s[..k])
    ensures Value(s[..k]) <= Value(s)
    decreases |s| - k
  {
    if k < |s| {
      var p := s[..|s| - 1];
      assert p[..k] == s[..k];
      PrefixValueBounded(p, k);
    } else {
      assert s[..k] == s;
    }
  }

  /** Rendering then parsing gives the number back, for every uint64. */
  lemma {:induction false} ParseFormat(n: nat)
    requires n < Uint64Limit
    ensures AllDigits(Format(n)) && Value(Format(n)) == n
    ensures Uint64Value(Format(n)) == Some(n)
  {
    FormatDigits(n);
  }

  lemma {:induction false} FormatDigits(n: nat)
    ensures AllDigits(Format(n)) && Value(Format(n)) == n
    ensures Canonical(Format(n))
    decreases n
  {
    if n >= 10 {
      FormatDigits(n / 10);
      var s := Format(n);
      assert s[..|s| - 1] == Format(n / 10);
      assert Format(n / 10)[0] == s[0];
    }
  }

  /** Parsing then rendering gives back any canonical accepted string: the
      accepted canonical strings and the uint64 values correspond one to one. */
  lemma {:induction false} FormatParse(s: string)
    requires Canonical(s) && Uint64Value(s).Some?
    ensures Format(Uint64Value(s).value) == s
  {
    FormatValue(s);
  }

  lemma {:induction false} FormatValue(s: string)
    requires Canonical(s)
    ensures Format(Value(s)) == s
    decreases |s|
  {
    if |s| == 1 {
      assert s[..0] == [];
    } else {
      var p := s[..|s| - 1];
      assert p[0] == s[0];
      assert AllDigits(p);
      PrefixValueBounded(p, 1);
      assert p[..1] == [s[0]];
      assert Value([s[0]]) == DigitValue(s[0]) by {
        assert [s[0]][..0] == [];
      }
      FormatValue(p);
      var v := Value(s);
      assert v / 10 == Value(p) && v % 10 == DigitValue(s[|s| - 1]);
      assert s == p + [s[|s| - 1]];
    }
  }
}

=== FILE: export_seed.dfy ===
/** Seeding the export configuration file (`saveExportConfig`, lines 135-149).
    The file-system check is the `statSucceeds` oracle: it holds when `os.Stat`
    of the path returns no error. A Stat that fails for any reason (the file
    is absent, but also permission denied or an I/O error) counts as "no file
    there", and the configuration is then written. The write is returned as
    the configuration to save, and whether that save succeeds is never
    looked at. */
module ExportSeed {
  import opened Base
  import opened Configs

  /** The well-known export configuration path (line 27). */
  const DefaultExportConfigFile: string := "/configs/export/config.toml"

  /** The path the export configuration is seeded at: the configured one,
      or the default when none is configured. */
  function ExportPath(file: string): (p: string)
    ensures p != []
    ensures file != [] ==> p == file
    ensures file == [] ==> p == DefaultExportConfigFile
  {
    if file == [] then DefaultExportConfigFile else file
  }

  /** The export configuration to write, if any: one is written only when
      the Stat of its path fails, and it carries that path. */
  function SeedExport(econf: ExportConfig, statSucceeds: string -> bool): (w: Option<ExportConfig>)
    ensures w.Some? <==> !statSucceeds(ExportPath(econf.file))
    ensures w.Some? ==> w.value == econf.(file := ExportPath(econf.file))
  {
    var conf := econf.(file := ExportPath(econf.file));
    if statSucceeds(conf.file) then None else Some(conf)
  }

  /** Seeding is write-once: once the Stat of the path it wrote succeeds,
      seeding the same configuration again writes nothing. */
  lemma SeedWritesOnce(econf: ExportConfig, statSucceeds: string -> bool)
    requires SeedExport(econf, statSucceeds).Some?
    ensures var written := SeedExport(econf, statSucceeds).value;
            SeedExport(econf, p => statSucceeds(p) || p == written.file) == None
  {
  }

  /** When the Stat of the path succeeds (a file is there), nothing is written,
      so an export file that Stat can see is never overwritten. A corollary of
      the first postcondition of `SeedExport`, stated on its own because it is
      the property the write-once seeding exists for. */
  lemma SeedKeepsExisting(econf: ExportConfig, statSucceeds: string -> bool)
    requires statSucceeds(ExportPath(econf.file))
    ensures SeedExport(econf, statSucceeds) == None
  {
  }

  /** Defaulting the path is idempotent: seeding a configuration that already
      names its resolved path behaves the same. */
  lemma SeedResolvedPath(econf: ExportConfig, statSucceeds: string -> bool)
    ensures SeedExport(econf.(file := ExportPath(econf.file)), statSucceeds) == SeedExport(econf, statSucceeds)
  {
  }
}

=== FILE: normalize.dfy ===
/** The content normalisation applied to a fetched body before JSON decoding
    (`convertContentStringToJSON`). The bootstrap server sends the nested
    configuration as an escaped JSON string; three fixed textual replacements
    undo the quote escaping of an object without control characters. It is a
    workaround for that server's output, not a general unescaping routine:
    every other escape in the body loses its backslash (`\n` becomes `n`).
    Each character stands for one byte of the body; the patterns are all
    ASCII. */
module Normalize {
  import opened Replace

  /** The characters the normalisation may remove. */
  const Removable: set<char> := {'\\', '"'}

  /** Strip every backslash, then turn `"{` into `{`, then `}"` into `}`. */
  function ConvertContentStringToJson(body: string): (r: string)
    ensures '\\' !in r
    ensures DeletesOnly(Removable, body, r)
    ensures |r| <= |body|
  {
    var unescaped := ReplaceAll(body, "\\", "");
    var openFixed := ReplaceAll(unescaped, "\"{", "{");
    var closed := ReplaceAll(openFixed, "}\"", "}");
    ReplaceAllRemovesChar(body, '\\', "");
    PassesDelete(body, unescaped, openFixed, closed);
    DeletesKeepCount({'"'}, unescaped, openFixed, '\\');
    DeletesKeepCount({'"'}, openFixed, closed, '\\');
    closed
  }

  /** The three passes only ever delete backslashes and double quotes. */
  lemma PassesDelete(body: string, unescaped: string, openFixed: string, closed: string)
    requires unescaped == ReplaceAll(body, "\\", "")
    requires openFixed == ReplaceAll(unescaped, "\"{", "{")
    requires closed == ReplaceAll(openFixed, "}\"", "}")
    ensures DeletesOnly({'"'}, unescaped, openFixed)
    ensures DeletesOnly({'"'}, openFixed, closed)
    ensures DeletesOnly(Removable, body, closed)
  {
    DeletesNothing({'"'}, "{");
    DeletesNothing({'"'}, "}");
    ReplaceAllDeletes({'\\'}, body, "\\", "");
    ReplaceAllDeletes({'"'}, unescaped, "\"{", "{");
    ReplaceAllDeletes({'"'}, openFixed, "}\"", "}");
    DeletesTrans({'\\'}, {'"'}, body, unescaped, openFixed);
    assert {'\\'} + {'"'} == {'\\', '"'};
    DeletesTrans({'\\', '"'}, {'"'}, body, openFixed, closed);
    assert {'\\', '"'} + {'"'} == Removable;
  }

  /** Braces are never added or removed, and no character is added. */
  lemma KeepsBraces(body: string)
    ensures multiset(ConvertContentStringToJson(body))['{'] == multiset(body)['{']
    ensures multiset(ConvertContentStringToJson(body))['}'] == multiset(body)['}']
    ensures multiset(ConvertContentStringToJson(body)) <= multiset(body)
  {
    var r := ConvertContentStringToJson(body);
    DeletesKeepCount(Removable, body, r, '{');
    DeletesKeepCount(Removable, body, r, '}');
    DeletesShrink(Removable, body, r);
  }

  /** The body comes back unchanged exactly when it contains no backslash,
      no `"{` and no `}"`. */
  lemma {:induction false} UnchangedIff(body: string)
    ensures ConvertContentStringToJson(body) == body
        <==> !Occurs("\\", body) && !Occurs("\"{", body) && !Occurs("}\"", body)
  {
    var unescaped := ReplaceAll(body, "\\", "");
    var openFixed := ReplaceAll(unescaped, "\"{", "{");
    var closed := ReplaceAll(openFixed, "}\"", "}");
    assert closed == ConvertContentStringToJson(body);
    ReplaceAllUnchanged(body, "\\", "");
    ReplaceAllUnchanged(unescaped, "\"{", "{");
    ReplaceAllUnchanged(openFixed, "}\"", "}");
    if closed == body {
      if unescaped != body {
        ReplaceAllMatchShrinks(body, "\\", "");
      }
      if openFixed != unescaped {
        ReplaceAllMatchShrinks(unescaped, "\"{", "{");
      }
    }
  }

  /** JSON string escaping (section 7 of RFC 8259) of a text without
      backslashes and without control characters: each double quote is
      written as backslash-quote, and every other character stands for
      itself. */
  function EscapeQuotes(o: string): string {
    if o == [] then [] else EscapeChar(o[0]) + EscapeQuotes(o[1..])
  }

  function EscapeChar(c: char): string {
    if c == '"' then "\\\"" else [c]
  }

  /** What the normalisation is for: a JSON object `o` that the server sent
      as an escaped JSON string comes back as the object itself, quotes
      restored, as long as `o` has no backslash, no control character (which
      JSON would escape too), no `"{` and no `}"` of its own. */
  lemma {:induction false} UnescapesEmbeddedObject(o: string)
    requires |o| >= 2 && o[0] == '{' && o[|o| - 1] == '}'
    requires '\\' !in o && !Occurs("\"{", o) && !Occurs("}\"", o)
    requires forall i :: 0 <= i < |o| ==> o[i] >= ' '
    ensures ConvertContentStringToJson("\"" + EscapeQuotes(o) + "\"") == o
  {
    var unescaped := "\"" + o + "\"";
    QuotedEscapesStripped(o);
    OpeningQuoteDropped(o);
    ClosingQuoteDropped(o);
    assert ReplaceAll(unescaped, "\"{", "{") == o + "\"";
  }

  /** First pass: the escapes go, the surrounding quotes stay. */
  lemma {:induction false} QuotedEscapesStripped(o: string)
    requires '\\' !in o
    ensures ReplaceAll("\"" + EscapeQuotes(o) + "\"", "\\", "") == "\"" + o + "\""
  {
    var e := EscapeQuotes(o);
    ReplaceAllAppend("\"", e + "\"", "\\", "");
    ReplaceAllAppend(e, "\"", "\\", "");
    StripEscapes(o);
    assert "\"" + e + "\"" == "\"" + (e + "\"");
  }

  /** Second pass: only the opening quote is followed by a brace. */
  lemma {:induction false} OpeningQuoteDropped(o: string)
    requires |o| >= 1 && o[0] == '{' && o[|o| - 1] != '"' && !Occurs("\"{", o)
    ensures ReplaceAll("\"" + o + "\"", "\"{", "{") == o + "\""
  {
    var unescaped := "\"" + o + "\"";
    var tail := o[1..];
    assert unescaped[..2] == "\"{" && unescaped[2..] == tail + "\"";
    assert NoMatchStraddles(tail, "\"{");
    ReplaceAllAppend(tail, "\"", "\"{", "{");
    assert !Occurs("\"{", tail);
    ReplaceAllNoMatch(tail, "\"{", "{");
    assert ReplaceAll("\"", "\"{", "{") == "\"";
    assert "{" + tail == o;
  }

  lemma {:induction false} StripEscapes(o: string)
    requires '\\' !in o
    ensures ReplaceAll(EscapeQuotes(o), "\\", "") == o
    decreases |o|
  {
    if o != [] {
      var head := EscapeChar(o[0]);
      assert NoMatchStraddles(head, "\\");
      ReplaceAllAppend(head, EscapeQuotes(o[1..]), "\\", "");
      StripEscapes(o[1..]);
      StripEscapedChar(o[0]);
      assert o == [o[0]] + o[1..];
    }
  }

  lemma StripEscapedChar(c: char)
    requires c != '\\'
    ensures ReplaceAll(EscapeChar(c), "\\", "") == [c]
  {
    if c == '"' {
      var e := EscapeChar(c);
      assert e[..1] == "\\" && e[1..] == "\"";
      assert ReplaceAll(e[1..], "\\", "") == "\"";
    }
  }

  lemma {:induction false} ClosingQuoteDropped(x: string)
    requires |x| >= 1 && x[|x| - 1] == '}' && !Occurs("}\"", x)
    ensures ReplaceAll(x + "\"", "}\"", "}") == x
    decreases |x|
  {
    if |x| == 1 {
      assert x + "\"" == "}\"";
      assert ReplaceAll("}\"", "}\"", "}") == "}" + ReplaceAll([], "}\"", "}");
    } else {
      assert (x + "\"")[..2] == x[..2];
      assert (x + "\"")[1..] == x[1..] + "\"";
      ClosingQuoteDropped(x[1..]);
      assert x == [x[0]] + x[1..];
    }
  }

  /** Any escape other than `\"` loses its backslash: an object holding one
      escaped character `c` (JSON sends a newline as `\n`, for instance) comes
      back holding the bare `c`, here the letter `n`. */
  lemma EscapeLost(c: char)
    requires c != '\\' && c != '"'
    ensures ConvertContentStringToJson("\"{\\" + [c] + "}\"") == "{" + [c] + "}"
  {
    var o := "{" + [c] + "}";
    EscapeStripped(c);
    assert "\"" + o + "\"" == "\"{" + [c] + "}\"";
    assert o[1..] == [c, '}'] && o[1..][1..] == "}";
    assert !Occurs("\"{", o[1..][1..]) && !Occurs("}\"", o[1..][1..]);
    OpeningQuoteDropped(o);
    ClosingQuoteDropped(o);
  }

  /** First pass on one escaped character: only its backslash goes. */
  lemma EscapeStripped(c: char)
    requires c != '\\'
    ensures ReplaceAll("\"{\\" + [c] + "}\"", "\\", "") == "\"{" + [c] + "}\""
  {
    var rest := [c] + "}\"";
    assert "\"{\\" + [c] + "}\"" == "\"{" + ("\\" + rest);
    ReplaceAllAppend("\"{", "\\" + rest, "\\", "");
    ReplaceAllAppend("\\", rest, "\\", "");
    assert !Occurs("\\", "\"{");
    ReplaceAllNoMatch("\"{", "\\", "");
    assert rest[..1] != "\\" && rest[1..] == "}\"";
    assert !Occurs("\\", "}\"");
    assert !Occurs("\\", rest);
    ReplaceAllNoMatch(rest, "\\", "");
    assert ReplaceAll("\\", "\\", "") == "" + ReplaceAll([], "\\", "");
  }

  /** Applying the normalisation twice can change the text again: it is not
      idempotent, because removing one quote can create a new `"{`. */
  lemma NotIdempotent()
    ensures ConvertContentStringToJson("\"\"{{") == "\"{{"
    ensures ConvertContentStringToJson(ConvertContentStringToJson("\"\"{{")) == "{{"
  {
  }
}

=== FILE: replace.dfy ===
/** Go's `strings.ReplaceAll` for a non-empty pattern, and the deletion
    relation used to describe what the content normalisation does. */
module Replace {

  /** A non-empty search pattern (every pattern the bootstrap code uses). */
  type Pattern = p: string | |p| > 0 witness "?"

  /** Leftmost, non-overlapping replacement of every occurrence of `pat`:
      scan from the left, and after a match resume just past it. */
  function ReplaceAll(s: string, pat: Pattern, rep: string): (r: string)
    ensures |rep| <= |pat| ==> |r| <= |s|
    decreases |s|
  {
    if |s| < |pat| then s
    else if s[..|pat|] == pat then rep + ReplaceAll(s[|pat|..], pat, rep)
    else [s[0]] + ReplaceAll(s[1..], pat, rep)
  }

  /** `pat` occurs somewhere in `s` (Go's `strings.Contains`). */
  predicate Occurs(pat: Pattern, s: string)
    decreases |s|
  {
    |s| >= |pat| && (s[..|pat|] == pat || Occurs(pat, s[1..]))
  }

  /** `a` is `b` with some characters drawn from `del` deleted, everything
      else kept in order. */
  predicate DeletesOnly(del: set<char>, b: string, a: string)
    decreases |b|
  {
    if b == [] then a == []
    else
      || (b[0] in del && DeletesOnly(del, b[1..], a))
      || (a != [] && a[0] == b[0] && DeletesOnly(del, b[1..], a[1..]))
  }

  lemma {:induction false} DeletesNothing(del: set<char>, s: string)
    ensures DeletesOnly(del, s, s)
    decreases |s|
  {
    if s != [] {
      DeletesNothing(del, s[1..]);
    }
  }

  lemma {:induction false} DeletesConcat(del: set<char>, b1: string, a1: string, b2: string, a2: string)
    requires DeletesOnly(del, b1, a1) && DeletesOnly(del, b2, a2)
    ensures DeletesOnly(del, b1 + b2, a1 + a2)
    decreases |b1|
  {
    if b1 == [] {
      assert a1 == [];
      assert b1 + b2 == b2 && a1 + a2 == a2;
    } else {
      assert (b1 + b2)[0] == b1[0] && (b1 + b2)[1..] == b1[1..] + b2;
      if b1[0] in del && DeletesOnly(del, b1[1..], a1) {
        DeletesConcat(del, b1[1..], a1, b2, a2);
      } else {
        DeletesConcat(del, b1[1..], a1[1..], b2, a2);
        assert (a1 + a2)[0] == a1[0] && (a1 + a2)[1..] == a1[1..] + a2;
      }
    }
  }

  /** Two rounds of deletion are one round of deletion over both sets. */
  lemma {:induction false} DeletesTrans(d1: set<char>, d2: set<char>, b: string, m: string, a: string)
    requires DeletesOnly(d1, b, m) && DeletesOnly(d2, m, a)
    ensures DeletesOnly(d1 + d2, b, a)
    decreases |b|
  {
    if b != [] {
      if b[0] in d1 && DeletesOnly(d1, b[1..], m) {
        DeletesTrans(d1, d2, b[1..], m, a);
      } else if m[0] in d2 && DeletesOnly(d2, m[1..], a) {
        DeletesTrans(d1, d2, b[1..], m[1..], a);
      } else {
        DeletesTrans(d1, d2, b[1..], m[1..], a[1..]);
      }
    }
  }

  /** Deletion keeps the number of every character outside `del`. */
  lemma {:induction false} DeletesKeepCount(del: set<char>, b: string, a: string, c: char)
    requires DeletesOnly(del, b, a) && c !in del
    ensures multiset(a)[c] == multiset(b)[c]
    decreases |b|
  {
    if b != [] {
      assert b == [b[0]] + b[1..];
      if b[0] in del && DeletesOnly(del, b[1..], a) {
        DeletesKeepCount(del, b[1..], a, c);
      } else {
        DeletesKeepCount(del, b[1..], a[1..], c);
        assert a == [a[0]] + a[1..];
      }
    }
  }

  /** Deletion never adds characters: the result is a sub-multiset. */
  lemma {:induction false} DeletesShrink(del: set<char>, b: string, a: string)
    requires DeletesOnly(del, b, a)
    ensures multiset(a) <= multiset(b)
    decreases |b|
  {
    if b != [] {
      assert b == [b[0]] + b[1..];
      if b[0] in del && DeletesOnly(del, b[1..], a) {
        DeletesShrink(del, b[1..], a);
      } else {
        DeletesShrink(del, b[1..], a[1..]);
        assert a == [a[0]] + a[1..];
      }
    }
  }

  /** If the replacement is the pattern with some `del` characters dropped,
      replacing all occurrences is itself a deletion of `del` characters. */
  lemma {:induction false} ReplaceAllDeletes(del: set<char>, s: string, pat: Pattern, rep: string)
    requires DeletesOnly(del, pat, rep)
    ensures DeletesOnly(del, s, ReplaceAll(s, pat, rep))
    decreases |s|
  {
    if |s| < |pat| {
      DeletesNothing(del, s);
    } else if s[..|pat|] == pat {
      ReplaceAllDeletes(del, s[|pat|..], pat, rep);
      assert s == pat + s[|pat|..];
      DeletesConcat(del, pat, rep, s[|pat|..], ReplaceAll(s[|pat|..], pat, rep));
    } else {
      ReplaceAllDeletes(del, s[1..], pat, rep);
      DeletesNothing(del, [s[0]]);
      assert s == [s[0]] + s[1..];
      DeletesConcat(del, [s[0]], [s[0]], s[1..], ReplaceAll(s[1..], pat, rep));
    }
  }

  /** Replacing a one-character pattern by text without that character
      leaves no occurrence of it. */
  lemma {:induction false} ReplaceAllRemovesChar(s: string, c: char, rep: string)
    requires c !in rep
    ensures c !in ReplaceAll(s, [c], rep)
    decreases |s|
  {
    if |s| >= 1 {
      ReplaceAllRemovesChar(s[1..], c, rep);
      assert s[..1] == [s[0]];
    }
  }

  /** Without an occurrence of the pattern the text is returned as is. */
  lemma {:induction false} ReplaceAllNoMatch(s: string, pat: Pattern, rep: string)
    requires !Occurs(pat, s)
    ensures ReplaceAll(s, pat, rep) == s
    decreases |s|
  {
    if |s| >= |pat| {
      ReplaceAllNoMatch(s[1..], pat, rep);
      assert s == [s[0]] + s[1..];
    }
  }

  /** With a shorter replacement, any occurrence makes the text shorter. */
  lemma {:induction false} ReplaceAllMatchShrinks(s: string, pat: Pattern, rep: string)
    requires |rep| < |pat| && Occurs(pat, s)
    ensures |ReplaceAll(s, pat, rep)| < |s|
    decreases |s|
  {
    if s[..|pat|] != pat {
      ReplaceAllMatchShrinks(s[1..], pat, rep);
    }
  }

  /** With a shorter replacement, ReplaceAll changes the text exactly when
      the pattern occurs in it. */
  lemma {:induction false} ReplaceAllUnchanged(s: string, pat: Pattern, rep: string)
    requires |rep| < |pat|
    ensures ReplaceAll(s, pat, rep) == s <==> !Occurs(pat, s)
  {
    if Occurs(pat, s) {
      ReplaceAllMatchShrinks(s, pat, rep);
    } else {
      ReplaceAllNoMatch(s, pat, rep);
    }
  }

  /** The last `|pat| - 1` characters of `x` do not include the pattern's
      first character, so no match can start in `x` and end beyond it. */
  predicate NoMatchStraddles(x: string, pat: Pattern) {
    forall i :: 0 <= i < |x| && |x| - |pat| < i ==> x[i] != pat[0]
  }

  /** Replacement distributes over a split point that no match can straddle
      (always so for a one-character pattern). */
  lemma {:induction false} ReplaceAllAppend(x: string, y: string, pat: Pattern, rep: string)
    requires NoMatchStraddles(x, pat)
    ensures ReplaceAll(x + y, pat, rep) == ReplaceAll(x, pat, rep) + ReplaceAll(y, pat, rep)
    decreases |x|
  {
    if x == [] {
      assert x + y == y;
    } else if |x + y| >= |pat| && (x + y)[..|pat|] == pat {
      AppendMatchStep(x, y, pat, rep);
      ReplaceAllAppend(x[|pat|..], y, pat, rep);
    } else if |x + y| >= |pat| {
      AppendSkipStep(x, y, pat, rep);
      ReplaceAllAppend(x[1..], y, pat, rep);
    } else {
      assert ReplaceAll(x, pat, rep) == x && ReplaceAll(y, pat, rep) == y;
    }
  }

  /** A match at the front of `x + y` lies inside `x`, and is replaced in both. */
  lemma AppendMatchStep(x: string, y: string, pat: Pattern, rep: string)
    requires x != [] && NoMatchStraddles(x, pat)
    requires |x + y| >= |pat| && (x + y)[..|pat|] == pat
    ensures |x| >= |pat| && NoMatchStraddles(x[|pat|..], pat)
    ensures ReplaceAll(x + y, pat, rep) == rep + ReplaceAll(x[|pat|..] + y, pat, rep)
    ensures ReplaceAll(x, pat, rep) == rep + ReplaceAll(x[|pat|..], pat, rep)
  {
    assert (x + y)[0] == x[0] == pat[0];
    assert x[..|pat|] == pat;
    assert (x + y)[|pat|..] == x[|pat|..] + y;
  }

  /** Without a match at the front, the first character of `x` is kept in both. */
  lemma AppendSkipStep(x: string, y: string, pat: Pattern, rep: string)
    requires x != [] && NoMatchStraddles(x, pat)
    requires |x + y| >= |pat| && (x + y)[..|pat|] != pat
    ensures NoMatchStraddles(x[1..], pat)
    ensures ReplaceAll(x + y, pat, rep) == [x[0]] + ReplaceAll(x[1..] + y, pat, rep)
    ensures ReplaceAll(x, pat, rep) == [x[0]] + ReplaceAll(x[1..], pat, rep)
  {
    assert (x + y)[1..] == x[1..] + y;
    if |x| >= |pat| {
      assert x[..|pat|] == (x + y)[..|pat|];
    } else {
      assert ReplaceAll(x[1..], pat, rep) == x[1..];
      assert x == [x[0]] + x[1..];
    }
  }
}
